=== FILE: README.md ===
# LLMFarm chat view-model: the streaming completion relay

A Dafny model of the session logic of `AIChatModel`, the view-model behind one chat
of the LLMFarm app. A completion is streamed by an inference engine; the view-model
receives each text fragment, checks it against the configured stop words (the
engine's "reverse prompts"), appends it to the reply being built, and publishes that
reply as the last element of the chat's message list. The model covers:

- the message record and its lifecycle states (`Messages`);
- stop-word detection with suffix truncation, `check_stop_words` (`StopWords`);
- the session record and its transitions, `update_last_message`, `stop_predict`,
  `process_predicted_str`, `finish_load`, `finish_completion`, the guard of
  `after_model_load`, the message-list and counter effects of `Send` and of
  `reload_chat` (`ChatModel`);
- whole streams, i.e. a sequence of fragment callbacks followed by the completion
  callback, and the properties that only show over several steps (`Relay`).

Every transition is a pure function from one immutable `Session` to the next. The
engine handle (`chat: AI?`) is reduced to what the relay reads and writes: the chat
name it streams for, its exit flag, its stop words and whether a model context is
loaded. The reply that the callbacks share through `inout` is threaded explicitly as
`StreamState.message`.

Strings are `seq<char>`: Swift's `String.count`, `hasSuffix` and `removeLast` work on
grapheme clusters with canonical equivalence; here one `char` stands for one cluster
and equality is plain sequence equality. Swift's `"x".hasSuffix("")` is true, and
that is kept: an empty stop word stops every stream.

Consequences of the code that the lemmas make explicit:

- A fragment that itself equals a stop word has not been appended yet, but
  `removeLast(stop_word.count)` still shortens the text, removing characters that
  were generated earlier (`TokenHitCutsGeneratedText`, `TokenHitExample`).
- The truncated local reply is never written back to the message list: the stop
  branch skips `update_last_message`, and `stop_predict` sets the exit flag, so
  `finish_completion` skips its update too (`StopHitNotWrittenBack`). A stop word that
  arrives in pieces is therefore published before it can be detected and stays in the
  history (`PiecewiseStopWordStaysInHistory`, `PiecewiseStopWordExample`).
- A stale stream (engine streaming for another chat) adds no text, but a stop-word
  hit in it still runs `stop_predict` on the current chat, finalizing its last
  message's state and resetting its counters (`ProcessPredictedStr`,
  `StaleStreamKeepsTexts`).

Two further facts about the code: the stop-word truncation reaches only the
callback's local copy of the reply, never the message list; and because `Send` sets
`state = .completed` before streaming starts (AIChatModel.swift:373), the last
message keeps changing while the state is completed. Message states include
`.none` (`Fresh` here), which `stop_predict` tests. The reply `Send` creates is built
without a state argument; the model assumes the declaration's default is `.none`.

The file declaring `Message` is not part of this model; its fields and states are
taken from their uses in `AIChatModel.swift`.

## Model

| member | source | states |
|---|---|---|
| StopWords.Truncate | LLMFarm/AIChatModel.swift:244-246 | a hit removes exactly the stop word's length from the end when the stop word is non-empty and the text strictly longer; otherwise the text is unchanged |
| StopWords.CheckFrom | LLMFarm/AIChatModel.swift:242-250 | scanning from position i: proceed iff no later stop word equals the fragment or ends the text; on a hit, the text is truncated by the first hitting word |
| StopWords.CheckStopWords | LLMFarm/AIChatModel.swift:241-251 | returns false iff some stop word equals the token or is a suffix of the text; the first hit in list order decides the truncation; the result text is always a prefix of the input |
| StopWords.CheckStopWordsUsesFirstHit | LLMFarm/AIChatModel.swift:242-248 | the first hitting stop word alone determines the outcome |
| StopWords.SuffixHitRemovesStopWord | LLMFarm/AIChatModel.swift:243-245 | when the text ends with a non-empty stop word and is longer than it, the truncation removes exactly that stop word |
| StopWords.TokenHitCutsGeneratedText | LLMFarm/AIChatModel.swift:243-245 | when only the fragment equals a non-empty stop word and the text is longer than it, the truncation removes characters that are not the stop word |
| StopWords.TokenHitExample | LLMFarm/AIChatModel.swift:243-245 | fragment "###" after "Hello world" stops and leaves "Hello wo" |
| StopWords.EmptyStopWordAlwaysStops | LLMFarm/AIChatModel.swift:243-247 | an empty stop word anywhere in the list stops every fragment; first in the list, it leaves the text unchanged |
| StopWords.NoStopWordsProceed | LLMFarm/AIChatModel.swift:242-250 | with no stop words every fragment passes and the text is kept |
| ChatModel.UpdateLastMessage | LLMFarm/AIChatModel.swift:203-209 | length is preserved, only the final element is replaced, an empty list is unchanged |
| ChatModel.StopPredict | LLMFarm/AIChatModel.swift:216-239 | sets the exit flag, resets the token counter and typing counter, clears predicting; the last message is finalized (or marked error) with text kept; earlier messages unchanged; an error stop drops the engine |
| ChatModel.ProcessPredictedStr | LLMFarm/AIChatModel.swift:253-268 | returns the stop check; a hit runs stop_predict, publishes nothing and leaves the local reply truncated exactly as check_stop_words does; the fragment is appended, the last message replaced and one token counted only when the check passes, the exit flag is clear and the chat names match, with every other session field unchanged; otherwise nothing changes |
| ChatModel.FinishLoad | LLMFarm/AIChatModel.swift:270-277 | state becomes completed and the saved title returns; without an error nothing else changes; with an error exactly one system error message (state error) is appended after the unchanged list, the engine is dropped, both counters are reset and predicting is cleared, and every other field is unchanged |
| ChatModel.FinishCompletion | LLMFarm/AIChatModel.swift:279-299 | finalizes the last message to predicted only when the guard holds; always resets the counters and predicting; appends one "Eval" error message iff the final string starts with "[Error]"; every other session field is unchanged |
| ChatModel.AfterModelLoad | LLMFarm/AIChatModel.swift:94-100 | state becomes completed and the saved title returns either way; a "[Done]" load with a ready context changes nothing else; any other load appends one "Load Model Error" message, drops the engine, resets the counters and predicting, and changes no other field |
| ChatModel.BeginSend | LLMFarm/AIChatModel.swift:338-343 | one typing tick; the new list is the old one followed by the typed user message (prompt and attachment fields) exactly when append_user_message is set; no other field changes |
| ChatModel.StartCompletion | LLMFarm/AIChatModel.swift:368-381 | a rag attachment adds a user_rag message; then exactly one empty system reply is appended as the last element, the counter is zero, the exit flag clear, the engine points at this chat with its stop words kept, predicting is set, the state is completed; no other field changes |
| ChatModel.ContinueSend | LLMFarm/AIChatModel.swift:351-381 | streams iff not on the retrieval path and the engine has a context; the retrieval path changes only the state (ragIndexLoading); the loading path changes only the state (loading), the title (to "loading...", the old one saved) and model_loading; streaming appends exactly the user_rag message for a rag attachment and then the empty reply, and changes only the messages, state, engine (this chat, exit flag clear), counter and predicting |
| ChatModel.SendWithEngine | LLMFarm/AIChatModel.swift:337-381 | `Send` with an engine in place: streams iff retrieval is off and the engine has a context; a halted send leaves the old list followed by the optional user message, a streaming one adds the optional user_rag message and the empty reply; the retrieval path changes only the typing counter, list, engine handle and state; the loading path also the title, saved title and model_loading; streaming points the engine at this chat with its exit flag clear, resets the counter, sets predicting and the completed state, and changes nothing else |
| ChatModel.Send | LLMFarm/AIChatModel.swift:337-381 | one typing tick; a halted send leaves the old list followed by the user message when asked; streaming happens iff an engine exists or was prepared, retrieval is off and a context is loaded, and then the list gains exactly the user message (when asked), the user_rag message (for a rag attachment) and the empty reply, with counters reset and the engine accepting; a failed preparation halts with the handle it left; the retrieval path halts in ragIndexLoading; the loading path halts in loading with the title saved |
| ChatModel.SendPrepareFailureHalts | LLMFarm/AIChatModel.swift:338-349 | with no engine and a failed preparation, `Send` halts having changed only the typing counter, the message list and the engine handle, which is whatever preparation left |
| ChatModel.SendWithEngineFrames | LLMFarm/AIChatModel.swift:345-381 | once an engine exists or was prepared, `Send` keeps that handle and changes only the state on the retrieval path; only the state, title, saved title and model_loading on the loading path; and when streaming, only the engine (pointed at this chat, exit flag clear, stop words and context kept), the counter, predicting and the state, besides the typing tick and the list |
| ChatModel.SendKeepsChatSettings | LLMFarm/AIChatModel.swift:337-381 | `Send` keeps the chat name and the mmodal and ragIndexLoaded flags on every path, and the title except when it starts loading a model |
| ChatModel.ReloadChat | LLMFarm/AIChatModel.swift:124-136 | traps iff the selection has no "chat" key; otherwise stops the prediction, switches the chat name, title, mmodal flag and history, clears ragIndexLoaded, puts the typing counter in (-100000, 0], and leaves every other field (state, saved title, model_loading) as stop_predict left it |
| Relay.Stream | LLMFarm/AIChatModel.swift:384-386 | a stream of fragments keeps the list length, every message but the last, the chat name and the engine's chat name |
| Relay.UpdateLastMessageLastWins | LLMFarm/AIChatModel.swift:203-209 | two replacements of the last message amount to the second |
| Relay.UpdateLastMessageAfterAppend | LLMFarm/AIChatModel.swift:203-209 | replacing right after an append equals appending the replacement |
| Relay.StopPredictIdempotent | LLMFarm/AIChatModel.swift:216-239 | stopping twice equals stopping once, whatever the second clock reading |
| Relay.StreamAppendsFragments | LLMFarm/AIChatModel.swift:253-268 | without stop words, a live stream appends every fragment in order, counts one token per fragment and publishes the reply as the last message |
| Relay.StaleStreamKeepsTexts | LLMFarm/AIChatModel.swift:258-266 | a stream whose engine belongs to another chat never changes any message text |
| Relay.ExitedStreamKeepsTexts | LLMFarm/AIChatModel.swift:253-268 | once the guard rejects the session (no engine, another chat's engine, or the exit flag set) it keeps rejecting it over any number of further fragments, and no message text changes |
| Relay.ReloadStopsOldStream | LLMFarm/AIChatModel.swift:124-136 | after reload_chat to any chat, the same one included, the old stream cannot change the loaded history's texts, because stop_predict has set the exit flag |
| Relay.FinishLoadErrorStopsStream | LLMFarm/AIChatModel.swift:270-274 | after a load error the engine is gone, so any later stream changes no message text |
| Relay.AfterModelLoadFailureStopsStream | LLMFarm/AIChatModel.swift:94-98 | after a failed load the engine is gone, so any later stream changes no message text |
| Relay.StopPredictKeepsTexts | LLMFarm/AIChatModel.swift:216-239 | stop_predict changes no message text |
| Relay.FinishRejectedKeepsMessages | LLMFarm/AIChatModel.swift:285-291 | when the guard fails, finish_completion leaves the reply and all existing messages unchanged |
| Relay.StopHitNotWrittenBack | LLMFarm/AIChatModel.swift:253-291 | when some stop word hits, after the fragment and the completion callback, every message keeps its pre-hit text and the truncated reply is not finalized |
| Relay.StreamConcat | LLMFarm/AIChatModel.swift:384-386 | streaming two batches equals streaming their concatenation |
| Relay.PublishStep | LLMFarm/AIChatModel.swift:253-263 | a fragment that trips no stop word on a live stream passes the check, is appended to the reply (now predicting), counts one token, is published as the last message, and the stream stays live on the same engine |
| Relay.PiecewiseStopWordStaysInHistory | LLMFarm/AIChatModel.swift:241-268 | a stop word arriving in two pieces ends up in the stored reply while the local copy is cut back |
| Relay.PiecewiseStopWordExample | LLMFarm/AIChatModel.swift:241-268 | with stop word "</s>", fragments "</", "s>", "x" after "Hi" leave "Hi</s>" in the history |
| Relay.SendAppendsPromptAndReply | LLMFarm/AIChatModel.swift:340-381 | a send with a ready engine appends the user message and the empty reply and starts a live stream |
| Relay.StreamThenFinish | LLMFarm/AIChatModel.swift:253-299 | streaming without stop words then finishing without error finalizes the reply with exactly the streamed text |
| Relay.SendThenStream | LLMFarm/AIChatModel.swift:337-389 | sending a prompt with no stop words yields the user message and a predicted system reply whose text is the concatenated fragments, with one token per fragment |

## Left out

- The inference engine (`llmfarm_core`): model loading, `conversation`, `save_state`,
  parameter lookups and `load_model_by_chat_name_prepare`'s configuration work are
  foreign calls; their outcomes enter as parameters (`Prepare`, `loadResult`,
  `Engine.contextReady`, the stop words).
- `load_model_by_chat_name` always returns true, so the "Model load error" branch of
  `Send` (AIChatModel.swift:362-364) cannot run and is not modelled.
- The retrieval path (`LoadRAGIndex`, `GenerateRagLLMQuery`, the similarity index):
  concurrent queues and a foreign library; `Send` models only its entry
  (`state = .ragIndexLoading`).
- Timing and throughput: `total_sec`, `tok_sec` and the message's `tok_sec` are
  floating-point values from the clock; the elapsed time enters as an opaque
  `Seconds` parameter and throughput is not modelled.
- `after_model_load` writes the system prompt into the `header` of the last message
  (AIChatModel.swift:104), which traps on an empty list; `Message.header` is not
  modelled, so this write is dropped. The system prompt and the image path of `Send`
  are engine inputs.
- The `print` logging (AIChatModel.swift:265, :282, :290): console output only.
- `numberOfTokens` and `AI_typing` are unbounded `int`s; Swift's `+=` on `Int` traps
  on overflow, which the model does not reproduce.
- `update_chat_params` (AIChatModel.swift:138-142) rewrites the engine model's context
  parameters, whose `reverse_prompt` list is what `check_stop_words` reads
  (AIChatModel.swift:242), from the chat's configuration file. That file is outside the
  model, so the update is not a transition here, and `Stream` keeps the stop words
  fixed for the whole stream; the sampling parameters are not part of `Engine`.
- `hard_reload_chat` drops the engine (`chat = nil`, AIChatModel.swift:115) after
  removing the state dump; it is not modelled as a transition.
- UI-only fields: `cur_t_name`, `load_progress`, `action_button_icon`,
  `cur_eval_token_num`, the progress and eval callbacks.
- Locks, `@MainActor` and main-queue dispatch: the model is sequential.
- Chat-history and state-dump files (`save_chat_history_and_state`,
  `load_chat_history`, `remove_dump_state`, `ResetRAGUrl`): file
  I/O; the loaded history enters `ReloadChat` as a parameter.
- `RegenerateLstMessage`, `SetSendMsgTokensCount` and `SetGeneratedMsgTokensCount`
  have empty bodies.
- An engine whose `model` is nil is not distinguished from one with no stop words and
  no context; the relay treats both alike.
- Early end of the callbacks: the engine may stop calling back once it sees the exit flag; the fold
  keeps feeding every fragment, which the guard then ignores, so it covers both.

=== FILE: chat_model.dfy ===
/** The view-model of one chat (`AIChatModel`): the ordered message list, the token
    counter, the engine's exit flag and the stale-stream guard, with each callback of
    the streaming relay as a pure transition over an immutable session record. */
module ChatModel {
  import opened Wrappers
  import opened Strings
  import opened Messages
  import opened StopWords

  /** The UI state published to the view: `.none`, `.loading`, `.ragIndexLoading`,
      `.ragSearch`, `.completed`. */
  datatype UiState = Idle | Loading | RagIndexLoading | RagSearch | Completed

  /** What the model sees of the inference engine handle (`chat: AI?`): the chat it
      is streaming for, its cooperative cancellation flag, the stop words of its
      context parameters, and whether a model context is loaded. An engine without a
      model has no stop words and no context. */
  datatype Engine = Engine(chatName: string, flagExit: bool, stopWords: seq<string>, contextReady: bool)

  /** The session state of the view-model. */
  datatype Session = Session(
    messages: seq<Message>,
    chat: Option<Engine>,
    chatName: string,
    numberOfTokens: int,
    aiTyping: int,
    predicting: bool,
    state: UiState,
    title: string,
    titleBackup: string,
    modelLoading: bool,
    isMmodal: bool,
    ragIndexLoaded: bool)

  /** A session together with the stream's local copy of the reply (the `inout`
      message the completion callbacks share). */
  datatype StreamState = StreamState(session: Session, message: Message)

  /** Result of `process_predicted_str`: the new relay state and the stop check. */
  datatype Step = Step(session: Session, message: Message, proceed: bool)

  /** `chat?.model?.contextParams.reverse_prompt ?? []`. */
  function StopWordsOf(s: Session): seq<string> {
    if s.chat.Some? then s.chat.value.stopWords else []
  }

  /** The guard `chat_name == chat?.chatName, chat?.flagExit != true`: an engine is
      present, streams for the chat on screen, and has not been told to stop. With
      no engine the name comparison is against `nil` and fails. */
  predicate Accepts(s: Session) {
    s.chat.Some? && !s.chat.value.flagExit && s.chat.value.chatName == s.chatName
  }

  /** The fragment path is dead for a stream whose engine belongs to another chat,
      or when there is no engine at all. */
  predicate Stale(s: Session) {
    s.chat.None? || s.chat.value.chatName != s.chatName
  }

  /** `update_last_message`: the final element becomes `m`; an empty list stays empty. */
  function UpdateLastMessage(messages: seq<Message>, m: Message): (r: seq<Message>)
    ensures |r| == |messages|
    ensures |messages| == 0 ==> r == messages
    ensures |messages| > 0 ==> r[|r| - 1] == m
    ensures forall i :: 0 <= i < |messages| - 1 ==> r[i] == messages[i]
  {
    if |messages| == 0 then messages else messages[..|messages| - 1] + [m]
  }

  /** The new state of the last message under `stop_predict`. */
  function StoppedState(st: MessageState, isError: bool, elapsed: Seconds): MessageState {
    if isError then Error else if st.Unfinished() then Predicted(elapsed) else st
  }

  /** `stop_predict(is_error:)`, with `elapsed` standing for the clock reading. */
  function StopPredict(s: Session, isError: bool, elapsed: Seconds): (r: Session)
    ensures r.numberOfTokens == 0 && !r.predicting && r.aiTyping == 0
    ensures isError || s.chat.None? ==> r.chat.None?
    ensures !isError && s.chat.Some? ==> r.chat == Some(s.chat.value.(flagExit := true))
    ensures !Accepts(r)
    ensures |r.messages| == |s.messages|
    ensures forall i :: 0 <= i < |s.messages| - 1 ==> r.messages[i] == s.messages[i]
    ensures |s.messages| > 0 ==>
      var last := s.messages[|s.messages| - 1];
      var last' := r.messages[|r.messages| - 1];
      && last'.sender == last.sender && last'.text == last.text
      && last'.attachment == last.attachment && last'.attachmentType == last.attachmentType
      && (isError ==> last'.state == Error)
      && (!isError && last.state.Unfinished() ==> last'.state == Predicted(elapsed))
      && (!isError && !last.state.Unfinished() ==> last'.state == last.state)
    ensures r.chatName == s.chatName && r.state == s.state && r.title == s.title
    ensures r.titleBackup == s.titleBackup && r.modelLoading == s.modelLoading
    ensures r.isMmodal == s.isMmodal && r.ragIndexLoaded == s.ragIndexLoaded
  {
    var chat := if s.chat.Some? then Some(s.chat.value.(flagExit := true)) else None;
    var messages :=
      if |s.messages| == 0 then s.messages
      else
        var last := s.messages[|s.messages| - 1];
        UpdateLastMessage(s.messages, last.(state := StoppedState(last.state, isError, elapsed)));
    s.(chat := if isError then None else chat,
       messages := messages,
       predicting := false,
       numberOfTokens := 0,
       aiTyping := 0)
  }

  /** `process_predicted_str(str, _, &message)`: run the stop check on the local
      reply; on a hit, stop the prediction; when the check passes and the guard
      holds, append the fragment, publish the reply as the last message and count
      one token. */
  function ProcessPredictedStr(s: Session, str: string, message: Message, elapsed: Seconds): (r: Step)
    ensures r.proceed <==> forall j :: 0 <= j < |StopWordsOf(s)| ==> !Hits(StopWordsOf(s)[j], str, message.text)
    // a stop-word hit stops the prediction and publishes nothing of the local reply
    ensures !r.proceed ==> r.session == StopPredict(s, false, elapsed)
    ensures !r.proceed ==> r.message == message.(text := r.message.text) && HasPrefix(message.text, r.message.text)
    ensures !r.proceed ==> r.message.text == CheckStopWords(StopWordsOf(s), str, message.text).text
    // the fragment is applied exactly when the check passes and the guard holds
    ensures r.proceed && Accepts(s) ==>
      && r.message == message.(state := Predicting, text := message.text + str)
      && |r.session.messages| == |s.messages|
      && (|s.messages| > 0 ==> r.session.messages[|s.messages| - 1] == r.message)
      && (forall i :: 0 <= i < |s.messages| - 1 ==> r.session.messages[i] == s.messages[i])
      && r.session == s.(messages := r.session.messages,
                         numberOfTokens := s.numberOfTokens + 1,
                         aiTyping := s.aiTyping + 1)
    ensures r.proceed && !Accepts(s) ==> r.session == s && r.message == message
  {
    var check := CheckStopWords(StopWordsOf(s), str, message.text);
    var message1 := message.(text := check.text);
    var s1 := if !check.proceed then StopPredict(s, false, elapsed) else s;
    if check.proceed && Accepts(s1) then
      var message2 := message1.(state := Predicting, text := message1.text + str);
      var s2 := s1.(aiTyping := s1.aiTyping + 1);
      var s3 := s2.(messages := UpdateLastMessage(s2.messages, message2));
      Step(s3.(numberOfTokens := s3.numberOfTokens + 1), message2, check.proceed)
    else
      Step(s1, message1, check.proceed)
  }

  /** `finish_load(append_err_msg:msg_text:)`: optionally report a load error as a
      system message and stop with an error; in every case the UI state becomes
      completed and the saved title is restored. */
  function FinishLoad(s: Session, appendErrMsg: bool, msgText: string, elapsed: Seconds): (r: Session)
    ensures r.state == Completed && r.title == s.titleBackup
    ensures appendErrMsg ==>
      && |r.messages| == |s.messages| + 1
      && r.messages[..|s.messages|] == s.messages
      && r.messages[|s.messages|] == SystemError(msgText)
    ensures !appendErrMsg ==> r == s.(state := Completed, title := s.titleBackup)
    ensures appendErrMsg ==>
      r == s.(messages := r.messages, chat := None, numberOfTokens := 0, predicting := false,
              aiTyping := 0, state := Completed, title := s.titleBackup)
  {
    var s1 :=
      if appendErrMsg then StopPredict(s.(messages := s.messages + [SystemError(msgText)]), true, elapsed)
      else s;
    s1.(state := Completed, title := s1.titleBackup)
  }

  /** `finish_completion(final_str, &message)`: finalize the reply when the guard
      holds, reset the counters, and report an engine error as one extra system
      message. */
  function FinishCompletion(s: Session, finalStr: string, message: Message, elapsed: Seconds): (r: StreamState)
    ensures r.session.numberOfTokens == 0 && !r.session.predicting && r.session.aiTyping == 0
    ensures Accepts(s) ==> r.message == message.(state := Predicted(elapsed))
    ensures !Accepts(s) ==> r.message == message
    ensures |r.session.messages| == |s.messages| + (if HasPrefix(finalStr, "[Error]") then 1 else 0)
    ensures Accepts(s) ==> r.session.messages[..|s.messages|] == UpdateLastMessage(s.messages, r.message)
    ensures !Accepts(s) ==> r.session.messages[..|s.messages|] == s.messages
    ensures HasPrefix(finalStr, "[Error]") ==> r.session.messages[|s.messages|] == SystemError("Eval " + finalStr)
    ensures r.session == s.(messages := r.session.messages, numberOfTokens := 0, predicting := false, aiTyping := 0)
  {
    var s1 := s.(aiTyping := 0);
    var finalized := message.(state := Predicted(elapsed));
    var r1 :=
      if Accepts(s1) then StreamState(s1.(messages := UpdateLastMessage(s1.messages, finalized)), finalized)
      else StreamState(s1, message);
    var s2 := r1.session.(predicting := false, numberOfTokens := 0);
    var s3 :=
      if HasPrefix(finalStr, "[Error]") then s2.(messages := s2.messages + [SystemError("Eval " + finalStr)])
      else s2;
    assert s3.messages[..|s.messages|] == r1.session.messages;
    StreamState(s3, r1.message)
  }

  /** The guard of `after_model_load`: the load reported "[Done]" and the engine has
      a model with a context. On success the queued prompt is then sent again
      (`Send` without re-appending the user message), which is a separate step. */
  function AfterModelLoad(s: Session, loadResult: string, elapsed: Seconds): (r: Session)
    ensures r.state == Completed && r.title == s.titleBackup
    ensures loadResult == "[Done]" && s.chat.Some? && s.chat.value.contextReady ==>
      r == s.(state := Completed, title := s.titleBackup)
    ensures !(loadResult == "[Done]" && s.chat.Some? && s.chat.value.contextReady) ==>
      r == s.(messages := r.messages, chat := None, numberOfTokens := 0, predicting := false,
              aiTyping := 0, state := Completed, title := s.titleBackup)
    ensures loadResult == "[Done]" && s.chat.Some? && s.chat.value.contextReady ==>
      r.messages == s.messages && r.chat == s.chat
    ensures !(loadResult == "[Done]" && s.chat.Some? && s.chat.value.contextReady) ==>
      && |r.messages| == |s.messages| + 1
      && r.messages[..|s.messages|] == s.messages
      && r.messages[|s.messages|] == SystemError("Load Model Error: " + loadResult)
      && r.chat.None?
  {
    if loadResult == "[Done]" && s.chat.Some? && s.chat.value.contextReady then
      FinishLoad(s, false, "", elapsed)
    else
      FinishLoad(s, true, "Load Model Error: " + loadResult, elapsed)
  }

  /** The streaming tail of `Send`, once an engine with a loaded context exists:
      record a retrieval-augmented prompt as its own user message, point the engine
      at this chat, clear its exit flag, and append the empty reply that the
      fragments will fill. */
  function StartCompletion(s: Session, inText: string, attachment: Option<string>,
                           attachmentType: Option<string>): (r: StreamState)
    requires s.chat.Some?
    ensures r.message == EmptyReply()
    ensures |r.session.messages| == |s.messages| + (if attachment.Some? && attachmentType == Some("rag") then 1 else 0) + 1
    ensures r.session.messages[..|s.messages|] == s.messages
    ensures r.session.messages[|r.session.messages| - 1] == r.message
    ensures attachment.Some? && attachmentType == Some("rag") ==>
      r.session.messages[|s.messages|] == Message(UserRag, Typed, inText, attachment, attachmentType)
    ensures Accepts(r.session) && r.session.chat.value.stopWords == s.chat.value.stopWords
    ensures r.session.numberOfTokens == 0 && r.session.predicting && r.session.state == Completed
    ensures r.session.aiTyping == s.aiTyping && r.session.chatName == s.chatName
    ensures r.session ==
      s.(messages := r.session.messages, state := Completed,
         chat := Some(s.chat.value.(chatName := s.chatName, flagExit := false)),
         numberOfTokens := 0, predicting := true)
  {
    var s1 :=
      if attachment.Some? && attachmentType == Some("rag") then
        s.(messages := s.messages + [Message(UserRag, Typed, inText, attachment, attachmentType)])
      else s;
    assert s1 == s.(messages := s1.messages);
    var reply := EmptyReply();
    StreamState(
      s1.(state := Completed,
          chat := Some(s1.chat.value.(chatName := s1.chatName, flagExit := false)),
          messages := s1.messages + [reply],
          numberOfTokens := 0,
          predicting := true),
      reply)
  }

  /** What `load_model_by_chat_name_prepare` left behind: the engine handle it
      created (if it got that far) and whether it reported success. */
  datatype Prepare = Prepare(chat: Option<Engine>, ok: bool)

  /** How `Send` ended: a completion is streaming into `message`, or `Send`
      returned early (preparation failed, retrieval path taken, or model loading). */
  datatype Sent = Streaming(session: Session, message: Message) | Halted(session: Session)

  /** The typed user message `Send` records when asked to, as a list of zero or one. */
  function UserPrompt(inText: string, appendUserMessage: bool,
                      attachment: Option<string>, attachmentType: Option<string>): seq<Message> {
    if appendUserMessage then [Message(User, Typed, inText, attachment, attachmentType)] else []
  }

  /** The user_rag message recorded for a retrieval attachment, as a list of zero or one. */
  function RagPrompt(inText: string, attachment: Option<string>, attachmentType: Option<string>): seq<Message> {
    if attachment.Some? && attachmentType == Some("rag") then [Message(UserRag, Typed, inText, attachment, attachmentType)]
    else []
  }

  /** Where the prompt messages and the reply sit after `Send` appends them. */
  lemma PromptLayout(ms: seq<Message>, inText: string, appendUserMessage: bool,
                     attachment: Option<string>, attachmentType: Option<string>)
    ensures var h := ms + UserPrompt(inText, appendUserMessage, attachment, attachmentType);
      && |h| == |ms| + (if appendUserMessage then 1 else 0)
      && h[..|ms|] == ms
      && (appendUserMessage ==> h[|ms|] == Message(User, Typed, inText, attachment, attachmentType))
    ensures var full := ms + UserPrompt(inText, appendUserMessage, attachment, attachmentType)
                          + RagPrompt(inText, attachment, attachmentType) + [EmptyReply()];
      && |full| == |ms| + (if appendUserMessage then 1 else 0)
                 + (if attachment.Some? && attachmentType == Some("rag") then 1 else 0) + 1
      && full[..|ms|] == ms
      && (appendUserMessage ==> full[|ms|] == Message(User, Typed, inText, attachment, attachmentType))
      && full[|full| - 1] == EmptyReply()
  {
    var h := ms + UserPrompt(inText, appendUserMessage, attachment, attachmentType);
    var full := h + RagPrompt(inText, attachment, attachmentType) + [EmptyReply()];
    assert full[..|h|] == h;
    assert full[..|ms|] == h[..|ms|];
  }

  /** The opening of `Send`: count the typing tick and, when asked to, record the
      prompt as a typed user message. */
  function BeginSend(s: Session, inText: string, appendUserMessage: bool,
                     attachment: Option<string>, attachmentType: Option<string>): (r: Session)
    ensures r.aiTyping == s.aiTyping + 1
    ensures |r.messages| == |s.messages| + (if appendUserMessage then 1 else 0)
    ensures r.messages[..|s.messages|] == s.messages
    ensures appendUserMessage ==> r.messages[|s.messages|] == Message(User, Typed, inText, attachment, attachmentType)
    ensures r.chat == s.chat && r.chatName == s.chatName && r.title == s.title
    ensures r == s.(aiTyping := s.aiTyping + 1, messages := r.messages)
    ensures r.messages == s.messages + UserPrompt(inText, appendUserMessage, attachment, attachmentType)
  {
    var s1 := s.(aiTyping := s.aiTyping + 1);
    if appendUserMessage then s1.(messages := s1.messages + [Message(User, Typed, inText, attachment, attachmentType)])
    else s1
  }

  /** A prefix of a prefix is a prefix, element by element. */
  lemma PrefixOfPrefix(a: seq<Message>, b: seq<Message>, c: seq<Message>)
    requires |b| <= |a| && a[..|b|] == b
    requires |c| <= |b| && b[..|c|] == c
    ensures a[..|c|] == c
    ensures forall i :: 0 <= i < |b| ==> a[i] == b[i]
  {
    assert forall i :: 0 <= i < |b| ==> a[i] == a[..|b|][i];
  }

  /** The engine `Send` works with once preparation (if any) is done. */
  function EngineAfterPrepare(s: Session, prepared: Prepare): Option<Engine> {
    if s.chat.Some? then s.chat else prepared.chat
  }

  /** `Send` once an engine handle exists: take the retrieval path, or start
      loading the model when it has no context yet, or start streaming. */
  function ContinueSend(s: Session, inText: string, attachment: Option<string>,
                        attachmentType: Option<string>, useRag: bool): (r: Sent)
    ensures |r.session.messages| >= |s.messages|
    ensures r.session.messages[..|s.messages|] == s.messages
    ensures r.Halted? ==> r.session.messages == s.messages
    ensures r.Streaming? <==> !useRag && s.chat.Some? && s.chat.value.contextReady
    ensures r.Streaming? ==>
      && r.message == EmptyReply()
      && |r.session.messages| == |s.messages| + (if attachment.Some? && attachmentType == Some("rag") then 1 else 0) + 1
      && r.session.messages[|r.session.messages| - 1] == r.message
      && Accepts(r.session)
      && r.session.numberOfTokens == 0 && r.session.predicting && r.session.state == Completed
    ensures useRag ==> r.session.state == RagIndexLoading
    ensures r.Halted? && !useRag ==>
      r.session.state == Loading && r.session.title == "loading..." && r.session.titleBackup == s.title
    ensures r.session.aiTyping == s.aiTyping
    ensures useRag ==> r == Halted(s.(state := RagIndexLoading))
    ensures !useRag && (s.chat.None? || !s.chat.value.contextReady) ==>
      r == Halted(s.(state := Loading, titleBackup := s.title, title := "loading...", modelLoading := true))
    ensures r.Streaming? ==>
      r.session ==
        s.(messages := r.session.messages, state := Completed,
           chat := Some(s.chat.value.(chatName := s.chatName, flagExit := false)),
           numberOfTokens := 0, predicting := true)
    ensures r.Streaming? ==> r.session.messages == s.messages + RagPrompt(inText, attachment, attachmentType) + [EmptyReply()]
  {
    if useRag then
      Halted(s.(state := RagIndexLoading))
    else if s.chat.None? || !s.chat.value.contextReady then
      Halted(s.(state := Loading, titleBackup := s.title, title := "loading...", modelLoading := true))
    else
      var started := StartCompletion(s, inText, attachment, attachmentType);
      Streaming(started.session, started.message)
  }

  /** `Send` once an engine handle `engine` is in place (the existing one, or the one
      preparation produced): the opening, then `ContinueSend`. */
  function SendWithEngine(
    s: Session, inText: string, appendUserMessage: bool,
    attachment: Option<string>, attachmentType: Option<string>,
    useRag: bool, engine: Option<Engine>): (r: Sent)
    ensures r.session.aiTyping == s.aiTyping + 1
    ensures |r.session.messages| >= |s.messages| + (if appendUserMessage then 1 else 0)
    ensures r.session.messages[..|s.messages|] == s.messages
    ensures appendUserMessage ==>
      r.session.messages[|s.messages|] == Message(User, Typed, inText, attachment, attachmentType)
    ensures r.Halted? ==> |r.session.messages| == |s.messages| + (if appendUserMessage then 1 else 0)
    ensures r.Streaming? <==> !useRag && engine.Some? && engine.value.contextReady
    ensures r.Streaming? ==>
      && r.message == EmptyReply()
      && |r.session.messages| == |s.messages| + (if appendUserMessage then 1 else 0)
           + (if attachment.Some? && attachmentType == Some("rag") then 1 else 0) + 1
      && r.session.messages[|r.session.messages| - 1] == r.message
      && Accepts(r.session)
      && r.session.numberOfTokens == 0 && r.session.predicting && r.session.state == Completed
    ensures r.Halted? && !useRag ==>
      r.session.state == Loading && r.session.title == "loading..." && r.session.titleBackup == s.title
        && r.session.modelLoading
    ensures useRag ==> r.Halted? && r.session.state == RagIndexLoading
    ensures r.session.chatName == s.chatName && r.session.isMmodal == s.isMmodal
    ensures r.session.ragIndexLoaded == s.ragIndexLoaded
    ensures !(r.Halted? && !useRag) ==> r.session.title == s.title
    ensures r.Halted? ==> r.session.messages == s.messages + UserPrompt(inText, appendUserMessage, attachment, attachmentType)
    ensures r.Streaming? ==>
      r.session.messages ==
        s.messages + UserPrompt(inText, appendUserMessage, attachment, attachmentType)
        + RagPrompt(inText, attachment, attachmentType) + [EmptyReply()]
    ensures useRag ==>
      r.session == s.(aiTyping := s.aiTyping + 1, messages := r.session.messages, chat := engine, state := RagIndexLoading)
    ensures !useRag && (engine.None? || !engine.value.contextReady) ==>
      r.session == s.(aiTyping := s.aiTyping + 1, messages := r.session.messages, chat := engine, state := Loading,
                      titleBackup := s.title, title := "loading...", modelLoading := true)
    ensures r.Streaming? ==>
      r.session == s.(aiTyping := s.aiTyping + 1, messages := r.session.messages, state := Completed,
                      chat := Some(engine.value.(chatName := s.chatName, flagExit := false)),
                      numberOfTokens := 0, predicting := true)
  {
    var s2 := BeginSend(s, inText, appendUserMessage, attachment, attachmentType);
    var s3 := s2.(chat := engine);
    assert s3 == s.(aiTyping := s.aiTyping + 1, messages := s2.messages, chat := engine);
    var r := ContinueSend(s3, inText, attachment, attachmentType, useRag);
    PromptLayout(s.messages, inText, appendUserMessage, attachment, attachmentType);
    r
  }

  /** `Send(message:append_user_message:...:useRag:)` up to the start of the
      conversation. `prepared` is the outcome of preparing an engine, consulted
      only when there is none yet. */
  function Send(
    s: Session, inText: string, appendUserMessage: bool,
    attachment: Option<string>, attachmentType: Option<string>,
    useRag: bool, prepared: Prepare): (r: Sent)
    ensures r.session.aiTyping == s.aiTyping + 1
    ensures |r.session.messages| >= |s.messages| + (if appendUserMessage then 1 else 0)
    ensures r.session.messages[..|s.messages|] == s.messages
    ensures appendUserMessage ==>
      r.session.messages[|s.messages|] == Message(User, Typed, inText, attachment, attachmentType)
    ensures r.Halted? ==> |r.session.messages| == |s.messages| + (if appendUserMessage then 1 else 0)
    ensures r.Streaming? <==>
      && (s.chat.Some? || prepared.ok)
      && !useRag
      && EngineAfterPrepare(s, prepared).Some?
      && EngineAfterPrepare(s, prepared).value.contextReady
    ensures r.Streaming? ==>
      && r.message == EmptyReply()
      && |r.session.messages| == |s.messages| + (if appendUserMessage then 1 else 0)
           + (if attachment.Some? && attachmentType == Some("rag") then 1 else 0) + 1
      && r.session.messages[|r.session.messages| - 1] == r.message
      && Accepts(r.session)
      && r.session.numberOfTokens == 0 && r.session.predicting && r.session.state == Completed
    ensures r.Halted? && !useRag && (s.chat.Some? || prepared.ok) ==>
      r.session.state == Loading && r.session.title == "loading..." && r.session.titleBackup == s.title
        && r.session.modelLoading
    ensures useRag && (s.chat.Some? || prepared.ok) ==> r.Halted? && r.session.state == RagIndexLoading
    ensures s.chat.None? && !prepared.ok ==> r.Halted? && r.session.chat == prepared.chat
    ensures r.Halted? ==> r.session.messages == s.messages + UserPrompt(inText, appendUserMessage, attachment, attachmentType)
    ensures r.Streaming? ==>
      r.session.messages ==
        s.messages + UserPrompt(inText, appendUserMessage, attachment, attachmentType)
        + RagPrompt(inText, attachment, attachmentType) + [EmptyReply()]
  {
    if s.chat.None? && !prepared.ok then
      Halted(BeginSend(s, inText, appendUserMessage, attachment, attachmentType).(chat := prepared.chat))
    else
      SendWithEngine(s, inText, appendUserMessage, attachment, attachmentType, useRag, EngineAfterPrepare(s, prepared))
  }

  /** When there is no engine and preparing one fails, `Send` returns right after
      recording the prompt: the session keeps whatever handle preparation left and
      nothing else changes. */
  lemma SendPrepareFailureHalts(
    s: Session, inText: string, appendUserMessage: bool,
    attachment: Option<string>, attachmentType: Option<string>,
    useRag: bool, prepared: Prepare)
    requires s.chat.None? && !prepared.ok
    ensures var r := Send(s, inText, appendUserMessage, attachment, attachmentType, useRag, prepared);
      && r.Halted?
      && r.session == s.(aiTyping := s.aiTyping + 1, messages := r.session.messages, chat := prepared.chat)
  {
  }

  /** `Send` once an engine exists or was prepared: the retrieval path changes only the
      state, the loading path only the state, title, saved title and model_loading, and
      streaming points the engine at this chat and resets the counters; the engine
      handle is the existing one or the prepared one, and nothing else changes. */
  lemma SendWithEngineFrames(
    s: Session, inText: string, appendUserMessage: bool,
    attachment: Option<string>, attachmentType: Option<string>,
    useRag: bool, prepared: Prepare)
    requires s.chat.Some? || prepared.ok
    ensures var r := Send(s, inText, appendUserMessage, attachment, attachmentType, useRag, prepared);
      var engine := EngineAfterPrepare(s, prepared);
      && (useRag ==>
            r.session == s.(aiTyping := s.aiTyping + 1, messages := r.session.messages, chat := engine,
                            state := RagIndexLoading))
      && (!useRag && (engine.None? || !engine.value.contextReady) ==>
            r.session == s.(aiTyping := s.aiTyping + 1, messages := r.session.messages, chat := engine,
                            state := Loading, titleBackup := s.title, title := "loading...", modelLoading := true))
      && (r.Streaming? ==>
            r.session == s.(aiTyping := s.aiTyping + 1, messages := r.session.messages, state := Completed,
                            chat := Some(engine.value.(chatName := s.chatName, flagExit := false)),
                            numberOfTokens := 0, predicting := true))
  {
    var engine := EngineAfterPrepare(s, prepared);
    assert Send(s, inText, appendUserMessage, attachment, attachmentType, useRag, prepared)
        == SendWithEngine(s, inText, appendUserMessage, attachment, attachmentType, useRag, engine);
  }

  /** `Send` never renames the chat or changes its multimodal and retrieval-index
      flags, and it keeps the title except when it starts loading a model. */
  lemma SendKeepsChatSettings(
    s: Session, inText: string, appendUserMessage: bool,
    attachment: Option<string>, attachmentType: Option<string>,
    useRag: bool, prepared: Prepare)
    ensures var r := Send(s, inText, appendUserMessage, attachment, attachmentType, useRag, prepared);
      && r.session.chatName == s.chatName && r.session.isMmodal == s.isMmodal
      && r.session.ragIndexLoaded == s.ragIndexLoaded
      && (!(r.Halted? && !useRag && (s.chat.Some? || prepared.ok)) ==> r.session.title == s.title)
  {
  }

  /** `reload_chat(chat_selection)`: stop the current prediction and switch to the
      selected chat, whose history (`history`, read from its file) replaces the
      message list. The forced unwrap of `chat_selection["chat"]` traps when the
      key is missing, which is `None` here. `nonce` stands for the random value
      drawn from `0 ..< 100_000`. */
  function ReloadChat(s: Session, selection: map<string, string>, history: Option<seq<Message>>,
                      nonce: nat, elapsed: Seconds): (r: Option<Session>)
    requires nonce < 100000
    ensures r.Some? <==> "chat" in selection
    ensures r.Some? ==>
      && r.value.chatName == selection["chat"]
      && r.value.messages == history.GetOr([])
      && r.value.title == (if "title" in selection then selection["title"] else "")
      && r.value.isMmodal == ("mmodal" in selection && selection["mmodal"] == "1")
      && !r.value.ragIndexLoaded
      && -100000 < r.value.aiTyping <= 0
      && r.value.numberOfTokens == 0 && !r.value.predicting
      && r.value.chat == StopPredict(s, false, elapsed).chat
    ensures r.Some? ==>
      r.value == s.(chat := r.value.chat, chatName := r.value.chatName, title := r.value.title,
                    isMmodal := r.value.isMmodal, messages := r.value.messages,
                    ragIndexLoaded := false, aiTyping := r.value.aiTyping,
                    numberOfTokens := 0, predicting := false)
  {
    var s1 := StopPredict(s, false, elapsed);
    if "chat" !in selection then None
    else
      Some(s1.(
        chatName := selection["chat"],
        title := (if "title" in selection then selection["title"] else ""),
        isMmodal := "mmodal" in selection && selection["mmodal"] == "1",
        messages := history.GetOr([]),
        ragIndexLoaded := false,
        aiTyping := -(nonce as int)))
  }
}

=== FILE: messages.dfy ===
/** The chat message record, as the view-model builds and updates it. */
module Messages {
  import opened Wrappers

  /** A clock-derived duration in seconds; the model never computes one, it only
      carries the value it is handed. */
  type Seconds = real

  /** Who wrote a message: `.user`, `.system` (the model) or `.user_rag`. */
  datatype Sender = User | System | UserRag

  /** Lifecycle of one message: `Fresh` is Swift's `.none` (just created), then
      `.typed`, `.predicting`, `.predicted(totalSecond:)` and `.error`. */
  datatype MessageState = Fresh | Typed | Predicting | Predicted(totalSecond: Seconds) | Error {

    /** The states `stop_predict` finalizes: a reply that was still streaming
        or had not started yet. */
    predicate Unfinished() {
      Predicting? || Fresh?
    }
  }

  /** One entry of the chat history. Throughput (`tok_sec`) and the prompt header
      are floating-point or engine data and are not modelled. */
  datatype Message = Message(
    sender: Sender,
    state: MessageState,
    text: string,
    attachment: Option<string>,
    attachmentType: Option<string>)

  /** `Message(sender: .system, state: .error, text: t, tok_sec: 0)`. */
  function SystemError(text: string): Message {
    Message(System, Error, text, None, None)
  }

  /** `Message(sender: .system, text: "", tok_sec: 0)`: the empty reply a
      completion streams into. */
  function EmptyReply(): Message {
    Message(System, Fresh, "", None, None)
  }
}

=== FILE: relay.dfy ===
/** A completion stream as the engine drives it: fragments arrive one at a time
    through `process_predicted_str`, then `finish_completion` closes the stream.
    The lemmas here relate whole streams to the session they act on. */
module Relay {
  import opened Wrappers
  import opened Strings
  import opened Messages
  import opened StopWords
  import opened ChatModel

  /** Feed `frags` in order through the fragment callback. The engine keeps calling
      until it notices the exit flag, so the fold does not stop at a stop-word hit:
      later calls find the flag set and publish nothing. */
  function Stream(r: StreamState, frags: seq<string>, elapsed: Seconds): (r': StreamState)
    decreases |frags|
    ensures |r'.session.messages| == |r.session.messages|
    ensures forall i :: 0 <= i < |r.session.messages| - 1 ==> r'.session.messages[i] == r.session.messages[i]
    ensures r'.session.chatName == r.session.chatName
    ensures r.session.chat.Some? ==> r'.session.chat.Some? && r'.session.chat.value.chatName == r.session.chat.value.chatName
    ensures r.session.chat.None? ==> r'.session.chat.None?
    ensures StopWordsOf(r'.session) == StopWordsOf(r.session)
  {
    if |frags| == 0 then r
    else
      var st := ProcessPredictedStr(r.session, frags[0], r.message, elapsed);
      Stream(StreamState(st.session, st.message), frags[1..], elapsed)
  }

  /** The session is streaming into `r.message`, which is its last message. */
  predicate Live(r: StreamState) {
    Accepts(r.session) && |r.session.messages| > 0
    && r.session.messages[|r.session.messages| - 1] == r.message
  }

  /** Replacing the last message twice keeps only the second replacement. */
  lemma UpdateLastMessageLastWins(messages: seq<Message>, a: Message, b: Message)
    ensures UpdateLastMessage(UpdateLastMessage(messages, a), b) == UpdateLastMessage(messages, b)
  {
    if |messages| > 0 {
      var once := UpdateLastMessage(messages, a);
      assert once[..|once| - 1] == messages[..|messages| - 1];
    }
  }

  /** Replacing the last message right after appending one is the same as having
      appended the replacement. */
  lemma UpdateLastMessageAfterAppend(messages: seq<Message>, a: Message, b: Message)
    ensures UpdateLastMessage(messages + [a], b) == messages + [b]
  {
    assert (messages + [a])[..|messages|] == messages;
  }

  /** Stopping twice is stopping once: the second call finds the last message
      already finalized and the engine already told to exit, whatever its clock. */
  lemma StopPredictIdempotent(s: Session, isError: bool, e1: Seconds, e2: Seconds)
    ensures StopPredict(StopPredict(s, isError, e1), isError, e2) == StopPredict(s, isError, e1)
  {
    var once := StopPredict(s, isError, e1);
    var twice := StopPredict(once, isError, e2);
    if |s.messages| > 0 {
      var n := |s.messages|;
      assert twice.messages[n - 1] == once.messages[n - 1];
      assert twice.messages == once.messages;
    }
  }

  /** With no stop words and a live stream, every fragment is appended to the reply
      in order, counted once, and published as the last message; nothing before it
      changes. */
  lemma {:induction false} StreamAppendsFragments(r: StreamState, frags: seq<string>, elapsed: Seconds)
    requires Live(r) && StopWordsOf(r.session) == []
    ensures var r' := Stream(r, frags, elapsed);
      && r'.message.text == r.message.text + Concat(frags)
      && r'.message == r.message.(state := r'.message.state, text := r'.message.text)
      && (|frags| > 0 ==> r'.message.state == Predicting)
      && r'.session.numberOfTokens == r.session.numberOfTokens + |frags|
      && r'.session.messages == UpdateLastMessage(r.session.messages, r'.message)
      && Live(r')
    decreases |frags|
  {
    var r' := Stream(r, frags, elapsed);
    if |frags| == 0 {
      var ms := r.session.messages;
      assert ms[..|ms| - 1] + [r.message] == ms;
    } else {
      PublishStep(r, frags[0], elapsed);
      var st := ProcessPredictedStr(r.session, frags[0], r.message, elapsed);
      var next := StreamState(st.session, st.message);
      StreamAppendsFragments(next, frags[1..], elapsed);
      assert r' == Stream(next, frags[1..], elapsed);
      AppendConcat(r.message.text, frags);
      UpdateLastMessageLastWins(r.session.messages, st.message, r'.message);
    }
  }

  /** The stale-stream guard: once the engine streams for another chat (or there is
      no engine), no fragment reaches the message list. Messages keep their texts and
      the list keeps its length; a stop-word hit may still finalize the last
      message's state through `stop_predict`. */
  lemma StaleStreamKeepsTexts(r: StreamState, frags: seq<string>, elapsed: Seconds)
    requires Stale(r.session)
    ensures var r' := Stream(r, frags, elapsed);
      && Stale(r'.session)
      && forall i :: 0 <= i < |r.session.messages| ==> r'.session.messages[i].text == r.session.messages[i].text
  {
    ExitedStreamKeepsTexts(r, frags, elapsed);
  }

  /** Cancellation over a whole stream: once the guard rejects the session (no
      engine, another chat's engine, or the exit flag set), it keeps rejecting it,
      and no later fragment changes any message text. */
  lemma {:induction false} ExitedStreamKeepsTexts(r: StreamState, frags: seq<string>, elapsed: Seconds)
    requires !Accepts(r.session)
    ensures var r' := Stream(r, frags, elapsed);
      && !Accepts(r'.session)
      && forall i :: 0 <= i < |r.session.messages| ==> r'.session.messages[i].text == r.session.messages[i].text
    decreases |frags|
  {
    if |frags| > 0 {
      var st := ProcessPredictedStr(r.session, frags[0], r.message, elapsed);
      if st.proceed {
        assert st.session == r.session;
      } else {
        assert st.session == StopPredict(r.session, false, elapsed);
        StopPredictKeepsTexts(r.session, false, elapsed);
      }
      ExitedStreamKeepsTexts(StreamState(st.session, st.message), frags[1..], elapsed);
    }
  }

  /** Switching chats stops the running stream: `reload_chat` calls `stop_predict`,
      which sets the exit flag, so whichever chat is selected (even the same one) the
      old stream cannot change the texts of the newly loaded history. */
  lemma ReloadStopsOldStream(s: Session, selection: map<string, string>, history: Option<seq<Message>>,
                             nonce: nat, e: Seconds, m: Message, frags: seq<string>, e2: Seconds)
    requires nonce < 100000
    requires "chat" in selection
    ensures var s' := ReloadChat(s, selection, history, nonce, e).value;
      var r' := Stream(StreamState(s', m), frags, e2);
      && |r'.session.messages| == |history.GetOr([])|
      && forall i :: 0 <= i < |s'.messages| ==> r'.session.messages[i].text == history.GetOr([])[i].text
  {
    var s' := ReloadChat(s, selection, history, nonce, e).value;
    assert !Accepts(s');
    ExitedStreamKeepsTexts(StreamState(s', m), frags, e2);
  }

  /** A failed load drops the engine, so a stream still delivering fragments
      afterwards changes no message text. */
  lemma FinishLoadErrorStopsStream(s: Session, msgText: string, e: Seconds, m: Message, frags: seq<string>, e2: Seconds)
    ensures var s' := FinishLoad(s, true, msgText, e);
      var r' := Stream(StreamState(s', m), frags, e2);
      forall i :: 0 <= i < |s'.messages| ==> r'.session.messages[i].text == s'.messages[i].text
  {
    var s' := FinishLoad(s, true, msgText, e);
    StaleStreamKeepsTexts(StreamState(s', m), frags, e2);
  }

  /** A load that did not finish with a ready context drops the engine, so the
      stream that would have followed changes no message text. */
  lemma AfterModelLoadFailureStopsStream(s: Session, loadResult: string, e: Seconds, m: Message,
                                         frags: seq<string>, e2: Seconds)
    requires !(loadResult == "[Done]" && s.chat.Some? && s.chat.value.contextReady)
    ensures var s' := AfterModelLoad(s, loadResult, e);
      var r' := Stream(StreamState(s', m), frags, e2);
      forall i :: 0 <= i < |s'.messages| ==> r'.session.messages[i].text == s'.messages[i].text
  {
    var s' := AfterModelLoad(s, loadResult, e);
    StaleStreamKeepsTexts(StreamState(s', m), frags, e2);
  }

  /** `stop_predict` changes no message text. */
  lemma StopPredictKeepsTexts(s: Session, isError: bool, e: Seconds)
    ensures forall i :: 0 <= i < |s.messages| ==> StopPredict(s, isError, e).messages[i].text == s.messages[i].text
  {
  }

  /** `finish_completion` for a stream the guard rejects leaves the local reply and
      every existing message as they were. */
  lemma FinishRejectedKeepsMessages(s: Session, finalStr: string, m: Message, e: Seconds)
    requires !Accepts(s)
    ensures var fin := FinishCompletion(s, finalStr, m, e);
      && fin.message == m
      && |fin.session.messages| >= |s.messages|
      && forall i :: 0 <= i < |s.messages| ==> fin.session.messages[i] == s.messages[i]
  {
    var fin := FinishCompletion(s, finalStr, m, e);
    assert fin.session.messages[..|s.messages|] == s.messages;
    assert forall i :: 0 <= i < |s.messages| ==> fin.session.messages[i] == fin.session.messages[..|s.messages|][i];
  }

  /** After a stop-word hit the truncated reply is never written back: the hit calls
      `stop_predict`, which sets the exit flag, so `finish_completion` skips its
      update and every message keeps the text it had before the hit. */
  lemma StopHitNotWrittenBack(s: Session, str: string, m: Message, e: Seconds, finalStr: string, e2: Seconds)
    requires exists j :: 0 <= j < |StopWordsOf(s)| && Hits(StopWordsOf(s)[j], str, m.text)
    ensures var st := ProcessPredictedStr(s, str, m, e);
      var fin := FinishCompletion(st.session, finalStr, st.message, e2);
      && fin.message == st.message
      && |fin.session.messages| >= |s.messages|
      && forall i :: 0 <= i < |s.messages| ==> fin.session.messages[i].text == s.messages[i].text
  {
    var st := ProcessPredictedStr(s, str, m, e);
    assert !st.proceed;
    assert st.session == StopPredict(s, false, e);
    StopPredictKeepsTexts(s, false, e);
    FinishRejectedKeepsMessages(st.session, finalStr, st.message, e2);
  }

  /** Streaming two batches of fragments is streaming their concatenation. */
  lemma {:induction false} StreamConcat(r: StreamState, a: seq<string>, b: seq<string>, elapsed: Seconds)
    ensures Stream(r, a + b, elapsed) == Stream(Stream(r, a, elapsed), b, elapsed)
    decreases |a|
  {
    if |a| == 0 {
      assert a + b == b;
    } else {
      var st := ProcessPredictedStr(r.session, a[0], r.message, elapsed);
      assert (a + b)[0] == a[0] && (a + b)[1..] == a[1..] + b;
      StreamConcat(StreamState(st.session, st.message), a[1..], b, elapsed);
    }
  }

  /** A stream is its first step followed by the rest of the stream. */
  lemma StreamCons(r: StreamState, f: string, rest: seq<string>, elapsed: Seconds)
    ensures var st := ProcessPredictedStr(r.session, f, r.message, elapsed);
      Stream(r, [f] + rest, elapsed) == Stream(StreamState(st.session, st.message), rest, elapsed)
  {
    assert ([f] + rest)[0] == f && ([f] + rest)[1..] == rest;
  }

  /** One fragment that trips no stop word on a live stream is appended and
      published, and the stream stays live on the same engine. */
  lemma PublishStep(r: StreamState, str: string, elapsed: Seconds)
    requires Live(r)
    requires forall j :: 0 <= j < |StopWordsOf(r.session)| ==> !Hits(StopWordsOf(r.session)[j], str, r.message.text)
    ensures var st := ProcessPredictedStr(r.session, str, r.message, elapsed);
      var r' := StreamState(st.session, st.message);
      && st.proceed
      && Live(r')
      && r'.message == r.message.(state := Predicting, text := r.message.text + str)
      && r'.session.numberOfTokens == r.session.numberOfTokens + 1
      && r'.session.messages == UpdateLastMessage(r.session.messages, r'.message)
      && r'.session.chat == r.session.chat && r'.session.chatName == r.session.chatName
  {
    var st := ProcessPredictedStr(r.session, str, r.message, elapsed);
    assert st.session.messages == UpdateLastMessage(r.session.messages, st.message);
  }

  /** A stop word that arrives in two pieces `a` and `b` is appended and published
      before any check can see it whole; the next fragment `x` trips the check, which
      cuts the stream's local copy back, but the reply stored in the history keeps
      the stop word at its end. */
  lemma PiecewiseStopWordStaysInHistory(r: StreamState, a: string, b: string, x: string, e: Seconds, finalStr: string)
    requires Live(r) && StopWordsOf(r.session) == [a + b]
    requires |b| > 0 && !HasSuffix(r.message.text, a + b)
    requires |a| > 0 && !HasSuffix(r.message.text + a, a + b)
    requires |r.message.text| > 0
    ensures var r' := Stream(r, [a, b, x], e);
      var fin := FinishCompletion(r'.session, finalStr, r'.message, e);
      && r'.message.text == r.message.text
      && |fin.session.messages| >= |r.session.messages|
      && fin.session.messages[|r.session.messages| - 1].text == r.message.text + a + b
  {
    var w := a + b;
    var n := |r.session.messages|;
    PublishStep(r, a, e);
    var st1 := ProcessPredictedStr(r.session, a, r.message, e);
    var r1 := StreamState(st1.session, st1.message);
    assert !Hits(StopWordsOf(r1.session)[0], b, r1.message.text);
    PublishStep(r1, b, e);
    var st2 := ProcessPredictedStr(r1.session, b, r1.message, e);
    var r2 := StreamState(st2.session, st2.message);
    assert r2.message.text == r.message.text + w;
    assert Hits(w, x, r2.message.text) by {
      SuffixOfAppend(r.message.text, w);
    }
    assert FirstHit([w], x, r2.message.text, 0);
    CheckStopWordsUsesFirstHit([w], x, r2.message.text, 0);
    var st := ProcessPredictedStr(r2.session, x, r2.message, e);
    assert st.message.text == r.message.text;
    StreamCons(r, a, [b, x], e);
    StreamCons(r1, b, [x], e);
    StreamCons(r2, x, [], e);
    assert [a] + [b, x] == [a, b, x] && [b] + [x] == [b, x] && [x] + [] == [x];
    StopHitNotWrittenBack(r2.session, x, r2.message, e, finalStr, e);
    assert r2.session.messages[n - 1] == r2.message;
  }

  /** An instance: with stop word "</s>" and a reply reading "Hi", the fragments
      "</", "s>", "x" leave "Hi</s>" in the history. */
  lemma PiecewiseStopWordExample(r: StreamState, e: Seconds)
    requires Live(r) && StopWordsOf(r.session) == ["</s>"] && r.message.text == "Hi"
    ensures var r' := Stream(r, ["</", "s>", "x"], e);
      var fin := FinishCompletion(r'.session, "", r'.message, e);
      && r'.message.text == "Hi"
      && fin.session.messages[|r.session.messages| - 1].text == "Hi</s>"
  {
    assert "</" + "s>" == "</s>";
    assert "Hi" + "</" == "Hi</";
    assert !HasSuffix("Hi</", "</s>") by { assert "Hi</"[0] != "</s>"[0]; }
    PiecewiseStopWordStaysInHistory(r, "</", "s>", "x", e, "");
    assert "Hi" + "</" + "s>" == "Hi</s>";
  }

  /** Sending a prompt, with the user message recorded and an engine whose context
      is loaded, appends the user message and the empty reply, and streams. */
  lemma SendAppendsPromptAndReply(s: Session, inText: string)
    requires s.chat.Some? && s.chat.value.contextReady
    ensures var sent := Send(s, inText, true, None, None, false, Prepare(None, false));
      && sent.Streaming?
      && sent.session.messages == s.messages + [Message(User, Typed, inText, None, None), EmptyReply()]
      && Live(StreamState(sent.session, sent.message))
      && StopWordsOf(sent.session) == s.chat.value.stopWords
      && sent.session.numberOfTokens == 0
  {
    var sent := Send(s, inText, true, None, None, false, Prepare(None, false));
    var ms := sent.session.messages;
    var user := Message(User, Typed, inText, None, None);
    assert |ms| == |s.messages| + 2;
    assert ms[..|s.messages|] == s.messages;
    assert ms[|s.messages|] == user;
    assert ms[|s.messages| + 1] == EmptyReply();
    assert ms == s.messages + [user, EmptyReply()];
    assert sent.session.chat.value.stopWords == s.chat.value.stopWords;
  }

  /** Streaming into a live reply without stop words, then finishing without an
      error, leaves the reply finalized with exactly the streamed text. */
  lemma StreamThenFinish(r: StreamState, frags: seq<string>, e: Seconds, finalStr: string)
    requires Live(r) && StopWordsOf(r.session) == []
    requires !HasPrefix(finalStr, "[Error]")
    ensures var r' := Stream(r, frags, e);
      && r'.session.numberOfTokens == r.session.numberOfTokens + |frags|
      && FinishCompletion(r'.session, finalStr, r'.message, e).session.messages
           == UpdateLastMessage(r.session.messages, r.message.(state := Predicted(e), text := r.message.text + Concat(frags)))
  {
    StreamAppendsFragments(r, frags, e);
    var r' := Stream(r, frags, e);
    var fin := FinishCompletion(r'.session, finalStr, r'.message, e);
    var reply := r.message.(state := Predicted(e), text := r.message.text + Concat(frags));
    assert fin.message == reply;
    assert fin.session.messages == UpdateLastMessage(r'.session.messages, reply);
    UpdateLastMessageLastWins(r.session.messages, r'.message, reply);
  }

  /** Sending a prompt with no stop words configured: the user message, then a
      system reply that accumulates exactly the streamed fragments, one token per
      fragment, finalized when the stream finishes without error. */
  lemma SendThenStream(s: Session, inText: string, frags: seq<string>, e: Seconds, finalStr: string)
    requires s.chat.Some? && s.chat.value.contextReady && s.chat.value.stopWords == []
    requires !HasPrefix(finalStr, "[Error]")
    ensures var sent := Send(s, inText, true, None, None, false, Prepare(None, false));
      && sent.Streaming?
      && var r := Stream(StreamState(sent.session, sent.message), frags, e);
      && r.session.numberOfTokens == |frags|
      && var fin := FinishCompletion(r.session, finalStr, r.message, e);
      && fin.session.messages == s.messages + [
           Message(User, Typed, inText, None, None),
           Message(System, Predicted(e), Concat(frags), None, None)]
  {
    SendAppendsPromptAndReply(s, inText);
    var sent := Send(s, inText, true, None, None, false, Prepare(None, false));
    var user := Message(User, Typed, inText, None, None);
    StreamThenFinish(StreamState(sent.session, sent.message), frags, e, finalStr);
    var reply := Message(System, Predicted(e), Concat(frags), None, None);
    assert EmptyReply().(state := Predicted(e), text := "" + Concat(frags)) == reply;
    assert s.messages + [user, EmptyReply()] == (s.messages + [user]) + [EmptyReply()];
    UpdateLastMessageAfterAppend(s.messages + [user], EmptyReply(), reply);
    assert (s.messages + [user]) + [reply] == s.messages + [user, reply];
  }
}

=== FILE: stop_words.dfy ===
/** Stop-sequence detection (`check_stop_words`): the configured reverse prompts are
    scanned in order; the first one that equals the incoming fragment or ends the
    text generated so far stops generation and may shorten that text. */
module StopWords {
  import opened Strings

  /** The outcome of a stop check: whether generation may proceed, and the text as
      left by the check (the `inout` argument of `check_stop_words`). */
  datatype StopCheck = StopCheck(proceed: bool, text: string)

  /** Stop word `w` fires for fragment `token` on accumulated `text`. */
  predicate Hits(w: string, token: string, text: string) {
    token == w || HasSuffix(text, w)
  }

  /** What a hit of `w` does to the text: `removeLast(w.count)` when `w` is
      non-empty and the text is strictly longer than `w`, nothing otherwise. */
  function Truncate(text: string, w: string): (r: string)
    ensures 0 < |w| < |text| ==> |r| == |text| - |w| && r + text[|text| - |w|..] == text
    ensures !(0 < |w| < |text|) ==> r == text
  {
    if |w| > 0 && |text| > |w| then DropLast(text, |w|) else text
  }

  /** `j` is the position of the first stop word in `words` that hits. */
  ghost predicate FirstHit(words: seq<string>, token: string, text: string, j: int) {
    && 0 <= j < |words|
    && Hits(words[j], token, text)
    && forall k :: 0 <= k < j ==> !Hits(words[k], token, text)
  }

  /** The scan from position `i` of the stop-word list onwards. */
  function CheckFrom(words: seq<string>, i: nat, token: string, text: string): (r: StopCheck)
    requires i <= |words|
    decreases |words| - i
    ensures r.proceed <==> forall j :: i <= j < |words| ==> !Hits(words[j], token, text)
    ensures r.proceed ==> r.text == text
    ensures !r.proceed ==>
      exists j :: i <= j < |words| && Hits(words[j], token, text)
        && (forall k :: i <= k < j ==> !Hits(words[k], token, text))
        && r.text == Truncate(text, words[j])
  {
    if i == |words| then StopCheck(true, text)
    else if Hits(words[i], token, text) then StopCheck(false, Truncate(text, words[i]))
    else CheckFrom(words, i + 1, token, text)
  }

  /** `check_stop_words(token, &text)`: `proceed` is false exactly when some stop
      word hits, and then the text is truncated by the first such word. */
  function CheckStopWords(words: seq<string>, token: string, text: string): (r: StopCheck)
    ensures r.proceed <==> forall j :: 0 <= j < |words| ==> !Hits(words[j], token, text)
    ensures r.proceed ==> r.text == text
    ensures !r.proceed ==> exists j :: FirstHit(words, token, text, j) && r.text == Truncate(text, words[j])
    ensures HasPrefix(text, r.text)
  {
    CheckFrom(words, 0, token, text)
  }

  /** The first hit is unique, so the truncation is determined by it. */
  lemma CheckStopWordsUsesFirstHit(words: seq<string>, token: string, text: string, j: int)
    requires FirstHit(words, token, text, j)
    ensures CheckStopWords(words, token, text) == StopCheck(false, Truncate(text, words[j]))
  {
    var r := CheckStopWords(words, token, text);
    assert !r.proceed;
    var j' :| FirstHit(words, token, text, j') && r.text == Truncate(text, words[j']);
    if j' != j {
      assert false;
    }
  }

  /** A stop word that arrived piecewise and now ends the text is cut off exactly:
      what remains, followed by the stop word, is the text. */
  lemma SuffixHitRemovesStopWord(text: string, w: string)
    requires HasSuffix(text, w) && 0 < |w| < |text|
    ensures Truncate(text, w) + w == text
  {
  }

  /** When the fragment itself equals the stop word, the stop word has not been
      appended to the text yet, yet `|w|` characters are still removed: unless the
      text happens to end with `w`, characters generated earlier are lost. */
  lemma TokenHitCutsGeneratedText(text: string, w: string)
    requires !HasSuffix(text, w) && 0 < |w| < |text|
    ensures |Truncate(text, w)| == |text| - |w|
    ensures Truncate(text, w) + w != text
  {
  }

  /** A concrete instance: stop word "###" arriving as a whole fragment after
      "Hello world" leaves "Hello wo". */
  lemma TokenHitExample()
    ensures CheckStopWords(["###"], "###", "Hello world") == StopCheck(false, "Hello wo")
  {
    assert FirstHit(["###"], "###", "Hello world", 0);
    CheckStopWordsUsesFirstHit(["###"], "###", "Hello world", 0);
  }

  /** An empty stop word is a suffix of every text, so wherever it sits in the list
      generation stops on the first fragment; when it is the first word, the text is
      left as it was. */
  lemma EmptyStopWordAlwaysStops(words: seq<string>, token: string, text: string)
    requires "" in words
    ensures !CheckStopWords(words, token, text).proceed
    ensures words[0] == "" ==> CheckStopWords(words, token, text).text == text
  {
    var i :| 0 <= i < |words| && words[i] == "";
    assert HasSuffix(text, words[i]);
    if words[0] == "" {
      assert FirstHit(words, token, text, 0);
      CheckStopWordsUsesFirstHit(words, token, text, 0);
    }
  }

  /** With no stop words configured, every fragment passes and the text is kept. */
  lemma NoStopWordsProceed(token: string, text: string)
    ensures CheckStopWords([], token, text) == StopCheck(true, text)
  {
  }
}

=== FILE: strings.dfy ===
/** Text as a sequence of characters, with the prefix and suffix tests the relay uses.
    Swift counts and compares `String`s by grapheme cluster; here one `char` stands
    for one cluster. */
module Strings {

  /** `s.hasPrefix(p)`; every string has the empty prefix. */
  predicate HasPrefix(s: string, p: string) {
    |p| <= |s| && s[..|p|] == p
  }

  /** `s.hasSuffix(w)`; every string has the empty suffix. */
  predicate HasSuffix(s: string, w: string) {
    |w| <= |s| && s[|s| - |w|..] == w
  }

  /** `s.removeLast(n)`: the string without its last `n` characters. */
  function DropLast(s: string, n: nat): (r: string)
    requires n <= |s|
    ensures |r| == |s| - n
    ensures r + s[|s| - n..] == s
  {
    s[..|s| - n]
  }

  /** Concatenation of a list of fragments, in order. */
  function Concat(parts: seq<string>): string
  {
    if |parts| == 0 then "" else parts[0] + Concat(parts[1..])
  }

  /** Appending a list of fragments appends its first fragment, then the rest. */
  lemma AppendConcat(s: string, parts: seq<string>)
    requires |parts| > 0
    ensures s + Concat(parts) == (s + parts[0]) + Concat(parts[1..])
  {
  }

  /** Appending `w` makes `w` a suffix. */
  lemma SuffixOfAppend(s: string, w: string)
    ensures HasSuffix(s + w, w)
  {
    assert (s + w)[|s + w| - |w|..] == w;
  }
}

=== FILE: wrappers.dfy ===
/** Swift's `Optional`, for the engine handle, dictionary lookups and attachments. */
module Wrappers {

  datatype Option<+T> = None | Some(value: T) {

    /** The value, or `default` when absent (Swift's `??`). */
    function GetOr(default: T): T {
      match this
      case Some(v) => v
      case None => default
    }
  }
}
